=== FILE: README.md ===
# Restore payload builder and recent-jobs filter, in Dafny

This project models the two pure transformations inside a pair of operational scripts that
drive a data-protection platform's REST API and SDK.

- **Restore payload builder** (`trigger-scheduled-restore.py`). It takes a restore schedule's
  stored properties (a JSON document) and an override set, and produces the CreateTask
  payload for an immediate restore. It picks the restore options of the first RESTORE
  subtask and layers the overrides on top. It then runs the destination sanity check,
  reduces every association to five fields, and wraps the result in a fixed task envelope.
- **Recent-jobs filter** (`list_recent_jobs` in `run_schedules.py`). It keeps the
  job-controller entries submitted by the configured user within a trailing window of
  minutes. It then sorts them stably by submit time.

JSON is the `Json.Json` datatype (`Null | Bool | Int | Str | Arr | Obj`) with `Truthy`, which
is Python truthiness. Python exceptions from `.get` on a non-dict, from `for` over a
non-iterable and from `dict()` are values of `Json.Fault`. That makes the builder a total
function returning `Result<Json, BuildError>`. The module constant `OVERRIDES` is the record
`RestorePayload.Overrides` of three `Option<Json>`. `None` there means the key is absent, and
`Some(Null)` means the key is set to Python `None`. Every builder function takes the override
set as a parameter; `RestorePayload.OVERRIDES` holds the script's own values
(trigger-scheduled-restore.py:39-50), and `RestoreProperties.ShippedOverridesAllApply` shows that
all three of them apply, so `AppliedOverridesReachThePayload` covers the script as shipped. The
filter is a function of `(now, windowMinutes, user, jobs)`, with all times in integer epoch
seconds. `JobFilter.RECENT_WINDOW_MINUTES` is the script's window (run_schedules.py:49, used at
line 101), and `JobFilter.ShippedWindowIsThreeMinutes` states the resulting 180-second cutoff.

Modules:

- `Results`: `Option` and `Result`.
- `Json`: the value type, truthiness, `.get`, iteration and `dict()`.
- `Text`: ASCII lower-casing and the substring test.
- `RestorePayload` and `RestoreProperties`: the builder and the lemmas about it.
- `JobFilter`: one loop iteration of `list_recent_jobs` and the whole selection loop.
- `TimeSort`: the stable sort by time.
- `RecentJobs`: the filter followed by the sort.

Two consequences of the code that the model makes explicit:

- The destination sanity check can never fail. The comment on the override set
  (trigger-scheduled-restore.py:41) and the error text at lines 128-130 both say an
  out-of-place restore needs a destination. The docstring of `is_in_place_restore`
  (lines 172-175) describes an in-place test, but the code reduces it to `not dest`
  (line 177). So the guard at line 127, `not dest and not is_in_place_restore(...)`, can never
  hold. `CheckDestination` proves the check always passes, and `BuildRestorePayload` proves
  the `DestinationMissing` error is never returned. `WellShapedFailsOnlyWithoutAssociations`
  shows that a well-shaped schedule with no destination at all still builds.
- Apart from that unreachable error, the only error the builder raises itself is the
  missing-associations one (lines 103-104).
  On documents whose parts are not dicts or lists where the code expects them, Python raises
  from a dict/list operation instead. The model reports that as `Raised(fault)`.

## Model

| member | source | states |
|---|---|---|
| RestorePayload.BuildRestorePayload | trigger-scheduled-restore.py:90-150 | The "destination missing" error never occurs. The result is `Err(NoAssociations)` exactly when the document and its taskInfo are dicts and `taskInfo.associations` is missing or falsy. A success is the fixed envelope around the normalised associations and the merged restore options. |
| RestorePayload.RestoreKind | trigger-scheduled-restore.py:109-111 | Reading a subtask's kind succeeds exactly when the entry is a dict and its `subTask`, if present, is a dict. An entry without `subTask` reads as `{}` and is not a RESTORE entry. |
| RestorePayload.FindRestoreOptions | trigger-scheduled-restore.py:107-113 | A successful search either passed only well-formed non-RESTORE entries and returns `{}`, or returns what the options of the first RESTORE entry read as, where every entry before it is a well-formed non-RESTORE entry. |
| RestoreProperties.WellShapedFailsOnlyWithoutAssociations | trigger-scheduled-restore.py:99-104 | On a well-shaped schedule, building succeeds if and only if the associations are non-empty; otherwise the error is `NoAssociations`. No destination is needed. |
| RestorePayload.SelectsFirstRestore | trigger-scheduled-restore.py:107-113 | When entry j is the first subtask whose `subTask` has operationType or subTaskType "RESTORE", its `options.restoreOptions` is selected. Appending any entries after it changes nothing. |
| RestorePayload.NoRestoreEntryGivesEmpty | trigger-scheduled-restore.py:107-113 | When no subtask is a RESTORE subtask, the options start as `{}`. |
| RestoreProperties.MergedOptionsFromFirstRestoreEntry | trigger-scheduled-restore.py:106-123 | The merged options, which a built payload carries, are the first RESTORE subtask's `options.restoreOptions` after `dict()` and the overrides. |
| RestoreProperties.MergedOptionsWithoutRestoreEntry | trigger-scheduled-restore.py:107-123 | Without a RESTORE subtask, the merged options are the overrides applied to `{}`. They hold exactly the applied override keys, each with its override value. |
| RestorePayload.MergedRestoreOptions | trigger-scheduled-restore.py:108-123 | Subtasks that cannot be iterated give an error. On success every applied override key is present and holds its override value, whatever the schedule held. `MergedOptionsFromFirstRestoreEntry` and `MergedOptionsWithoutRestoreEntry` pin down the rest of the map. |
| RestoreProperties.AppliedOverridesReachThePayload | trigger-scheduled-restore.py:116-147 | When all three override values apply (a truthy destination, flags that are not None), a well-shaped schedule with associations builds, and the payload's single RESTORE subtask carries restore options holding each override value, whatever the schedule held. The script's own `OVERRIDES` is such a set. |
| RestorePayload.ApplyOverrides | trigger-scheduled-restore.py:116-123 | The destination is replaced only by a truthy override. overwriteFiles and restoreACLsType are replaced whenever their override is not None, so `False` still applies. Every replaced key holds the override value, every other key keeps the schedule's value, and the key set is the schedule's keys plus the applied keys. |
| RestorePayload.IsInPlaceRestore | trigger-scheduled-restore.py:171-177 | A restore counts as in-place exactly when the `destination` that the sanity check reads at line 126, `{}` when absent, is falsy. That is why `CheckDestination` can never fail. |
| RestorePayload.CheckDestination | trigger-scheduled-restore.py:126-131 | The sanity check passes for every option map, because the in-place heuristic (lines 171-177) is the negation of its first test. |
| RestorePayload.NormalizeAssociation | trigger-scheduled-restore.py:160-167 | The entry has exactly the keys clientName, appName, instanceId, backupsetId and subclientId. Each value is copied from the input, or is None when the input lacks it. |
| RestorePayload.NormalizeAll | trigger-scheduled-restore.py:158-168 | Succeeds exactly when every element is a dict. The output has the same length and order as the input, and element i is the normalisation of input element i. |
| RestorePayload.NormalizeAssociations | trigger-scheduled-restore.py:153-168 | On a list input: succeeds exactly when all elements are dicts, and keeps length, order and per-entry contents. |
| RestorePayload.Envelope | trigger-scheduled-restore.py:133-149 | The payload has only the key taskInfo, which holds task, associations and subTasks. The task is COMMANDLINE / taskType 0 / DATA_PROTECTION / disabled false, and there is exactly one subtask. |
| RestorePayload.RestoreSubTaskEntry | trigger-scheduled-restore.py:142-147 | The single subtask is typed RESTORE/RESTORE, and its options.restoreOptions is the merged map. |
| Json.Get | trigger-scheduled-restore.py:99-101 | `j.get(key, default)` succeeds exactly when `j` is a dict. It gives the stored value when the key is present, and the default otherwise. |
| Json.Elements | trigger-scheduled-restore.py:108 | Looping with `for x in j` and reading each `x` with `.get` gets started exactly when `j` is a list, a string or an empty dict. A list visits its items and an empty dict visits nothing. None, booleans, integers and non-empty dicts raise. |
| Json.ToDict | trigger-scheduled-restore.py:116 | `dict(j)` succeeds exactly on a dict, an empty list or an empty string. A dict is copied; the empty list and string give `{}`. None, booleans, integers and non-empty lists or strings raise. |
| Text.Lower | run_schedules.py:115 | `.lower()` keeps the length and lower-cases each character on its own. |
| Text.Contains | run_schedules.py:117 | `needle in hay` holds if and only if the needle occurs at some offset of hay. |
| JobFilter.SubmitTime | run_schedules.py:109 | The time is submitTime when that is truthy, and otherwise startTime. |
| JobFilter.Timestamp | run_schedules.py:111-114 | A time is numeric exactly when it is an integer or a boolean. Integers are their own value, and True and False are 1 and 0. |
| JobFilter.UserField | run_schedules.py:115 | The user is userName when truthy, else user when truthy, else "". A non-string chosen value makes `.lower()` raise. |
| JobFilter.Classify | run_schedules.py:107-121 | An entry is kept exactly when its details are a dict, its user field is a string, its time is numeric (int or bool) and at or after `now - 60*windowMinutes`, and the lower-cased configured user occurs in the lower-cased user field. A kept line is (job id, time, status). |
| JobFilter.UserMatchIsCaseInsensitiveContainment | run_schedules.py:115-117 | Any in-window entry whose user field contains any case spelling of the configured user, with any text around it, is kept. The test is containment, not equality. |
| JobFilter.Select | run_schedules.py:105-118 | The selection is no longer than the input. A line is selected exactly when some input entry classifies to it. |
| JobFilter.SelectedPositions | run_schedules.py:105-118 | There is one input position per selected line. The positions are in range and strictly increasing, so distinct lines come from distinct entries, in dict order. |
| JobFilter.SelectedLinesComeFromTheirPositions | run_schedules.py:105-118 | Selected line i is exactly what the entry at its recorded position classifies to. |
| JobFilter.EveryKeptEntryIsSelected | run_schedules.py:105-118 | Every entry that classifies to a line has its position among the selected positions, so each kept entry contributes its own line. |
| TimeSort.InsertByTime | run_schedules.py:124 | Insertion adds exactly one element; the multiset grows by x. |
| TimeSort.InsertKeepsSorted | run_schedules.py:124 | Inserting into a time-sorted sequence keeps it sorted. |
| TimeSort.InsertPrecedesEqualTimes | run_schedules.py:124 | The inserted job goes in front of the jobs that share its time, and the jobs at other times are undisturbed. |
| TimeSort.SortByTime | run_schedules.py:124 | The sort is a permutation of its input. |
| TimeSort.SortIsSorted | run_schedules.py:124 | The result is ascending by submit time. |
| TimeSort.SortIsStable | run_schedules.py:124 | Jobs with equal times keep their input order. |
| TimeSort.StableSortIsUnique | run_schedules.py:124 | Two time-sorted sequences that have the same jobs, in the same order, at every time are equal. |
| TimeSort.SameTimeClassesArePermutations | run_schedules.py:124 | Two sequences with the same jobs, in the same order, at every time are permutations of each other. |
| RecentJobs.ListRecentJobs | run_schedules.py:93-124 | Treats a missing job dict as empty. The report is no longer than the input. It is ascending by time, and at every time it holds exactly the selected lines for that time in input order, so it is a permutation of the selection (see `TimeSort.SameTimeClassesArePermutations`). |
| RecentJobs.JobsOrEmpty | run_schedules.py:106 | A missing job dict and an empty one are both read as no jobs. A present job dict is read as it is. |
| RecentJobs.ReportIsTheStableSort | run_schedules.py:124 | Every stable sort by time of the selection (such as Python's `list.sort`) gives the same report. |

## Left out

- `login`, `get_schedule_properties`, `submit_restore`, `logout` and `main` in trigger-scheduled-restore.py are left out. They are HTTP calls, the token lifecycle and cleanup, with no pure logic to model.
- The base64 password encoding in `login` is left out. It is a library call used only by the HTTP login.
- `run_by_names`, `run_by_task_ids`, `main` and the `Commcell` session in run_schedules.py are left out. They are thin wrappers over an SDK that is not part of this model.
- All console printing is left out, in both scripts.
- `datetime.now`, time zones and float timestamps are left out. `now` is a parameter and times are integer epoch seconds, so float job times and float JSON numbers are not modelled.
- JobFilter.Classify: range errors from `datetime.fromtimestamp` are not modelled. Python skips such an entry; the model keeps any integer time.
- Text.Lower: lower-cases ASCII letters only, while Python's `str.lower` lower-cases all of Unicode.
- Json.ToDict: `dict()` of a non-empty list of key/value pairs is reported as a fault, while Python would build a dict from the pairs. The schedule API returns an object there.
- Json.Elements: a non-empty dict is reported as AttributeError directly. In Python its string keys are iterated, and the first `.get` on one of them raises that error.
- Dict key order is not modelled, because JSON objects are maps.
- The job dict is a sequence of (job id, details) pairs. It may repeat a job id, which a Python dict cannot.
- Python exception classes are kept only as far as the scripts need them. The filter catches every exception raised for an entry and skips that entry; the model's `Classify` returns `None` there.

=== FILE: job_filter.dfy ===
/**
 * The filter inside list_recent_jobs (run_schedules.py): which job-controller
 * entries are reported as recently submitted by the configured user.
 * The clock is a parameter: `now` and all job times are integer epoch seconds.
 */
module JobFilter {
  import opened Results
  import opened Json
  import opened Text

  /** One item of the job controller's job dict: the job id and its details. */
  datatype JobEntry = JobEntry(jobId: Json, details: Json)

  /** One reported job: its id, submit time in epoch seconds, and status. */
  datatype RecentJob = RecentJob(jobId: Json, submitted: int, status: Json)

  /** The trailing window the script looks back over, in minutes. */
  const RECENT_WINDOW_MINUTES: int := 3

  /** The earliest submit time still reported. */
  function Cutoff(now: int, windowMinutes: int): int {
    now - 60 * windowMinutes
  }

  /** The values `isinstance(v, (int, float))` accepts, as epoch seconds; a bool is an int. */
  function Timestamp(v: Json): (r: Option<int>)
    ensures r.Some? <==> v.Int? || v.Bool?
    // True and False are the integers 1 and 0
    ensures v.Bool? ==> r == Some(if v.b then 1 else 0)
    ensures v.Int? ==> r == Some(v.i)
  {
    match v
    case Int(i) => Some(i)
    case Bool(b) => Some(if b then 1 else 0)
    case _ => None
  }

  /** `details.get("submitTime") or details.get("startTime")`, read as a timestamp. */
  function SubmitTime(details: map<string, Json>): (r: Option<int>)
    ensures Truthy(Lookup(details, "submitTime")) ==> r == Timestamp(details["submitTime"])
    ensures !Truthy(Lookup(details, "submitTime")) ==> r == Timestamp(Lookup(details, "startTime"))
  {
    Timestamp(Or(Lookup(details, "submitTime"), Lookup(details, "startTime")))
  }

  /**
   * `details.get("userName") or details.get("user") or ""` when that is a string; any other
   * value makes `.lower()` raise, which skips the entry.
   */
  function UserField(details: map<string, Json>): (r: Option<string>)
    ensures Truthy(Lookup(details, "userName")) ==>
      r == (if details["userName"].Str? then Some(details["userName"].s) else None)
    ensures !Truthy(Lookup(details, "userName")) && Truthy(Lookup(details, "user")) ==>
      r == (if details["user"].Str? then Some(details["user"].s) else None)
    ensures !Truthy(Lookup(details, "userName")) && !Truthy(Lookup(details, "user")) ==> r == Some("")
  {
    match Or(Or(Lookup(details, "userName"), Lookup(details, "user")), Str(""))
    case Str(s) => Some(s)
    case _ => None
  }

  /** The entry's submit time, when the entry has dict details, a string user and a numeric time. */
  function EntryTime(e: JobEntry): Option<int> {
    if e.details.Obj? && UserField(e.details.fields).Some? then SubmitTime(e.details.fields) else None
  }

  /** The configured user occurs, ignoring case, somewhere in the entry's user field. */
  ghost predicate SubmittedBy(e: JobEntry, user: string) {
    && e.details.Obj?
    && UserField(e.details.fields).Some?
    && OccursIn(Lower(user), Lower(UserField(e.details.fields).value))
  }

  /**
   * One pass of the loop body: the reported line for an entry, or `None` when the entry is
   * filtered out or skipped because reading it raised.
   */
  function Classify(now: int, windowMinutes: int, user: string, e: JobEntry): (r: Option<RecentJob>)
    ensures r.Some? <==>
      && EntryTime(e).Some?
      && EntryTime(e).value >= Cutoff(now, windowMinutes)
      && SubmittedBy(e, user)
    ensures r.Some? ==>
      r.value == RecentJob(e.jobId, EntryTime(e).value, Lookup(e.details.fields, "status"))
  {
    match e.details
    case Obj(details) =>
      (match (SubmitTime(details), UserField(details))
       case (Some(t), Some(u)) =>
         if t >= Cutoff(now, windowMinutes) && Contains(Lower(u), Lower(user))
         then Some(RecentJob(e.jobId, t, Lookup(details, "status")))
         else None
       case _ => None)
    case _ => None
  }

  /** Some entry of `jobs` classifies to the line `x`. */
  ghost predicate SomeEntryGives(now: int, windowMinutes: int, user: string, jobs: seq<JobEntry>, x: RecentJob) {
    exists j :: 0 <= j < |jobs| && Classify(now, windowMinutes, user, jobs[j]) == Some(x)
  }

  /** The loop over the job dict: the reported lines in dict order, before sorting. */
  function Select(now: int, windowMinutes: int, user: string, jobs: seq<JobEntry>): (r: seq<RecentJob>)
    ensures |r| <= |jobs|
    ensures forall x :: x in r <==> SomeEntryGives(now, windowMinutes, user, jobs, x)
    decreases |jobs|
  {
    if |jobs| == 0 then []
    else
      var init := jobs[..|jobs| - 1];
      var prefix := Select(now, windowMinutes, user, init);
      assert forall j :: 0 <= j < |init| ==> init[j] == jobs[j];
      match Classify(now, windowMinutes, user, jobs[|jobs| - 1])
      case Some(x) => prefix + [x]
      case None => prefix
  }

  /**
   * The input positions the selected lines come from: strictly increasing, so every line
   * comes from its own entry and the selection keeps the dict's order.
   */
  ghost function SelectedPositions(now: int, windowMinutes: int, user: string, jobs: seq<JobEntry>): (idx: seq<int>)
    ensures |idx| == |Select(now, windowMinutes, user, jobs)|
    ensures forall i :: 0 <= i < |idx| ==> 0 <= idx[i] < |jobs|
    ensures forall i, k :: 0 <= i < k < |idx| ==> idx[i] < idx[k]
    decreases |jobs|
  {
    if |jobs| == 0 then []
    else
      var prefix := SelectedPositions(now, windowMinutes, user, jobs[..|jobs| - 1]);
      if Classify(now, windowMinutes, user, jobs[|jobs| - 1]).Some? then prefix + [|jobs| - 1]
      else prefix
  }

  /** Each selected line is what its recorded input position classifies to. */
  lemma {:induction false} SelectedLinesComeFromTheirPositions(
    now: int, windowMinutes: int, user: string, jobs: seq<JobEntry>, i: int)
    requires 0 <= i < |SelectedPositions(now, windowMinutes, user, jobs)|
    ensures Classify(now, windowMinutes, user, jobs[SelectedPositions(now, windowMinutes, user, jobs)[i]])
      == Some(Select(now, windowMinutes, user, jobs)[i])
    decreases |jobs|
  {
    var init := jobs[..|jobs| - 1];
    var prefix := SelectedPositions(now, windowMinutes, user, init);
    var last := Classify(now, windowMinutes, user, jobs[|jobs| - 1]);
    var selInit := Select(now, windowMinutes, user, init);
    assert SelectedPositions(now, windowMinutes, user, jobs)
      == if last.Some? then prefix + [|jobs| - 1] else prefix;
    assert Select(now, windowMinutes, user, jobs)
      == if last.Some? then selInit + [last.value] else selInit;
    if i < |prefix| {
      SelectedLinesComeFromTheirPositions(now, windowMinutes, user, init, i);
      assert jobs[prefix[i]] == init[prefix[i]];
    }
  }

  /** Every kept entry contributes its own line: its position is among the selected ones. */
  lemma {:induction false} EveryKeptEntryIsSelected(
    now: int, windowMinutes: int, user: string, jobs: seq<JobEntry>, j: int)
    requires 0 <= j < |jobs| && Classify(now, windowMinutes, user, jobs[j]).Some?
    ensures j in SelectedPositions(now, windowMinutes, user, jobs)
    decreases |jobs|
  {
    var init := jobs[..|jobs| - 1];
    var prefix := SelectedPositions(now, windowMinutes, user, init);
    var last := Classify(now, windowMinutes, user, jobs[|jobs| - 1]);
    assert SelectedPositions(now, windowMinutes, user, jobs)
      == if last.Some? then prefix + [|jobs| - 1] else prefix;
    if j < |jobs| - 1 {
      assert init[j] == jobs[j];
      EveryKeptEntryIsSelected(now, windowMinutes, user, init, j);
    }
  }

  /**
   * With the script's own window an entry by the configured user is reported exactly when
   * it was submitted at most three minutes (180 seconds) before `now`, the boundary included.
   */
  lemma ShippedWindowIsThreeMinutes(now: int, user: string, e: JobEntry)
    requires SubmittedBy(e, user) && EntryTime(e).Some?
    ensures Classify(now, RECENT_WINDOW_MINUTES, user, e).Some? <==> EntryTime(e).value >= now - 180
  {
  }

  /**
   * The user test is containment, not equality, and ignores case on both sides: an entry
   * in the window whose user field holds any spelling of the configured user, with
   * anything before or after it, is kept.
   */
  lemma UserMatchIsCaseInsensitiveContainment(
    now: int, windowMinutes: int, user: string, e: JobEntry, before: string, spelling: string, after: string)
    requires Lower(spelling) == Lower(user)
    requires e.details.Obj? && UserField(e.details.fields) == Some(before + spelling + after)
    requires EntryTime(e).Some? && EntryTime(e).value >= Cutoff(now, windowMinutes)
    ensures Classify(now, windowMinutes, user, e).Some?
  {
    var field := before + spelling + after;
    assert Lower(field) == Lower(before) + Lower(user) + Lower(after);
    assert OccursAt(Lower(user), Lower(field), |before|) by {
      assert Lower(field)[|before|..|before| + |user|] == Lower(user);
    }
  }
}

=== FILE: json.dfy ===
/** Decoded JSON values, with the parts of Python's dict/list protocol the scripts rely on. */
module Json {
  import opened Results

  /** A decoded JSON document. Objects are finite maps from string keys; floats are not modelled. */
  datatype Json =
    | Null
    | Bool(b: bool)
    | Int(i: int)
    | Str(s: string)
    | Arr(items: seq<Json>)
    | Obj(fields: map<string, Json>)

  /** The Python exception a dict/list operation on a value of the wrong shape raises. */
  datatype Fault =
    | AttributeError  // `.get` on something that is not a dict
    | TypeError       // `for` or `dict()` over something that is not iterable
    | ValueError      // `dict()` over a sequence whose elements are not key/value pairs

  /** Python truthiness of a decoded value: `None`, `False`, `0`, `""`, `[]` and `{}` are false. */
  predicate Truthy(j: Json) {
    match j
    case Null => false
    case Bool(b) => b
    case Int(i) => i != 0
    case Str(s) => |s| > 0
    case Arr(a) => |a| > 0
    case Obj(m) => |m| > 0
  }

  /** Python's `x or y`: the first operand when it is truthy, otherwise the second. */
  function Or(x: Json, y: Json): Json {
    if Truthy(x) then x else y
  }

  /** `m.get(key)` on a dict: the stored value, or `None` when the key is absent. */
  function Lookup(m: map<string, Json>, key: string): Json {
    if key in m then m[key] else Null
  }

  /** `j.get(key, default)`: raises AttributeError unless `j` is a dict. */
  function Get(j: Json, key: string, default: Json): (r: Result<Json, Fault>)
    ensures r.Ok? <==> j.Obj?
    ensures j.Obj? && key in j.fields ==> r == Ok(j.fields[key])
    ensures j.Obj? && key !in j.fields ==> r == Ok(default)
  {
    match j
    case Obj(m) => Ok(if key in m then m[key] else default)
    case _ => Err(AttributeError)
  }

  /** The empty dict literal `{}`. */
  const EmptyObj: Json := Obj(map[])

  /**
   * The elements `for x in j` visits, for a loop that calls `x.get(...)` on each of them.
   * A list yields its items and a string its one-character strings. A dict yields its
   * keys, which are strings, so the first `.get` on a key of a non-empty dict raises
   * AttributeError; that error is reported here directly. Scalars are not iterable.
   */
  function Elements(j: Json): (r: Result<seq<Json>, Fault>)
    ensures j.Arr? ==> r == Ok(j.items)
    ensures r.Ok? <==> j.Arr? || j.Str? || j == EmptyObj
    ensures j.Obj? && !Truthy(j) ==> r == Ok([])
  {
    match j
    case Arr(a) => Ok(a)
    case Str(s) => Ok(seq(|s|, i requires 0 <= i < |s| => Str([s[i]])))
    case Obj(m) => if |m| == 0 then Ok([]) else Err(AttributeError)
    case _ => Err(TypeError)
  }

  /**
   * `dict(j)`: a copy of a dict, and the empty dict for an empty list or string.
   * A non-empty string has one-character elements, which are not key/value pairs.
   */
  function ToDict(j: Json): (r: Result<map<string, Json>, Fault>)
    ensures j.Obj? ==> r == Ok(j.fields)
    ensures r.Ok? <==> j.Obj? || j == Arr([]) || j == Str("")
    ensures r.Ok? && !j.Obj? ==> r.value == map[]
  {
    match j
    case Obj(m) => Ok(m)
    case Arr(a) => if |a| == 0 then Ok(map[]) else Err(ValueError)
    case Str(s) => if |s| == 0 then Ok(map[]) else Err(ValueError)
    case _ => Err(TypeError)
  }
}

=== FILE: recent_jobs.dfy ===
/**
 * list_recent_jobs (run_schedules.py) without the job controller call and the printing:
 * the jobs submitted by the configured user in the trailing window, oldest first.
 */
module RecentJobs {
  import opened Results
  import opened JobFilter
  import opened TimeSort

  /** `all_jobs or {}`: a missing job dict is read as an empty one. */
  function JobsOrEmpty(allJobs: Option<seq<JobEntry>>): (jobs: seq<JobEntry>)
    // a missing and an empty job dict are read alike; a non-empty one is read as it is
    ensures |jobs| == 0 <==> allJobs.None? || |allJobs.value| == 0
    ensures allJobs.Some? ==> jobs == allJobs.value
  {
    match allJobs
    case Some(jobs) => jobs
    case None => []
  }

  /**
   * The report lines: every kept entry once, ascending by submit time, entries with equal
   * times in job-dict order. `now` is the current time in epoch seconds.
   */
  method ListRecentJobs(now: int, windowMinutes: int, user: string, allJobs: Option<seq<JobEntry>>)
    returns (recent: seq<RecentJob>)
    ensures |recent| <= |JobsOrEmpty(allJobs)|
    ensures SortedByTime(recent)
    ensures forall t :: WithTime(recent, t) == WithTime(Select(now, windowMinutes, user, JobsOrEmpty(allJobs)), t)
  {
    var jobs := JobsOrEmpty(allJobs);
    var selected: seq<RecentJob> := [];
    var i := 0;
    while i < |jobs|
      invariant 0 <= i <= |jobs|
      invariant selected == Select(now, windowMinutes, user, jobs[..i])
    {
      assert jobs[..i + 1][..i] == jobs[..i];
      match Classify(now, windowMinutes, user, jobs[i]) {
        case Some(line) => selected := selected + [line];
        case None =>
      }
      i := i + 1;
    }
    assert jobs[..|jobs|] == jobs;
    SortIsSorted(selected);
    forall t ensures WithTime(SortByTime(selected), t) == WithTime(selected, t) {
      SortIsStable(selected, t);
    }
    recent := SortByTime(selected);
    assert |recent| == |multiset(recent)| == |multiset(selected)| == |selected|;
  }

  /**
   * Any stable sort of the selected lines by time gives the same report: a sorted sequence
   * with the selected lines in input order at every time is the report.
   */
  lemma ReportIsTheStableSort(now: int, windowMinutes: int, user: string, jobs: seq<JobEntry>, r: seq<RecentJob>)
    requires SortedByTime(r)
    requires forall t :: WithTime(r, t) == WithTime(Select(now, windowMinutes, user, jobs), t)
    ensures r == SortByTime(Select(now, windowMinutes, user, jobs))
  {
    var selected := Select(now, windowMinutes, user, jobs);
    SortIsSorted(selected);
    forall t ensures WithTime(SortByTime(selected), t) == WithTime(r, t) {
      SortIsStable(selected, t);
    }
    StableSortIsUnique(SortByTime(selected), r);
  }
}

=== FILE: restore_payload.dfy ===
/**
 * The pure core of trigger-scheduled-restore.py: turning a restore schedule's stored
 * properties plus the local override set into a CreateTask payload for an immediate restore.
 */
module RestorePayload {
  import opened Results
  import opened Json

  /** Why building the payload stops. */
  datatype BuildError =
    | NoAssociations        // the schedule lists no associations
    | DestinationMissing    // out-of-place restore without a destination
    | Raised(fault: Fault)  // a dict/list operation met a value of the wrong shape

  /**
   * The override set. `None` is a key absent from the dict; `Some(Null)` is a key set to `None`.
   */
  datatype Overrides = Overrides(
    destination: Option<Json>,
    overwriteFiles: Option<Json>,
    restoreACLsType: Option<Json>)

  /** `OVERRIDES.get(k)`: the override value, or `None` when the key is absent. */
  function OverrideValue(o: Option<Json>): Json {
    match o
    case None => Null
    case Some(v) => v
  }

  /** The override set the script ships with. */
  const OVERRIDES: Overrides := Overrides(
    Some(Obj(map[
      "destClient" := Obj(map["clientName" := Str("target-client")]),
      "destPath" := Arr([Str("E:\\restore_target")])])),
    Some(Bool(true)),
    Some(Str("ACL_DATA")))

  function Raise<T>(r: Result<T, Fault>): Result<T, BuildError> {
    r.MapError(f => Raised(f))
  }

  // ---------------------------------------------------------------------------
  // Selecting the schedule's restore options
  // ---------------------------------------------------------------------------

  /**
   * Whether a subtask entry is a RESTORE one: its `subTask` dict has operationType or
   * subTaskType equal to "RESTORE". Raises when the entry or its `subTask` is not a dict.
   */
  function RestoreKind(st: Json): (r: Result<bool, Fault>)
    // the entry and its `subTask` (when present) must be dicts for the two `.get` calls
    ensures r.Ok? <==> st.Obj? && ("subTask" in st.fields ==> st.fields["subTask"].Obj?)
    // a missing `subTask` reads as `{}`, which is never a RESTORE one
    ensures st.Obj? && "subTask" !in st.fields ==> r == Ok(false)
  {
    var subtask :- Get(st, "subTask", EmptyObj);
    var operationType :- Get(subtask, "operationType", Null);
    // `subtask` is a dict once the first `subtask.get` has returned, so the second cannot raise
    var subTaskType := Get(subtask, "subTaskType", Null).GetOr(Null);
    Ok(operationType == Str("RESTORE") || subTaskType == Str("RESTORE"))
  }

  /** `st.get("options", {}).get("restoreOptions", {})` */
  function EntryRestoreOptions(st: Json): Result<Json, Fault> {
    var options :- Get(st, "options", EmptyObj);
    Get(options, "restoreOptions", EmptyObj)
  }

  /** The loop over subtasks: the options of the first RESTORE entry, `{}` when there is none. */
  function FindRestoreOptions(subTasks: seq<Json>): (r: Result<Json, Fault>)
    // a successful search either passed only non-RESTORE entries and found `{}`, or
    // returns what the first RESTORE entry's options read as
    ensures r.Ok? ==>
      || ((forall i :: 0 <= i < |subTasks| ==> IsOtherEntry(subTasks[i])) && r.value == EmptyObj)
      || (exists j :: FirstRestoreAt(subTasks, j) && r == EntryRestoreOptions(subTasks[j]))
    decreases |subTasks|
  {
    if |subTasks| == 0 then Ok(EmptyObj)
    else
      var isRestore :- RestoreKind(subTasks[0]);
      if isRestore then
        assert FirstRestoreAt(subTasks, 0);
        EntryRestoreOptions(subTasks[0])
      else
        var r := FindRestoreOptions(subTasks[1..]);
        assert r.Ok? && (exists j :: FirstRestoreAt(subTasks[1..], j) && r == EntryRestoreOptions(subTasks[1..][j])) ==>
          exists j :: FirstRestoreAt(subTasks, j) && r == EntryRestoreOptions(subTasks[j]) by {
          if r.Ok? && exists j :: FirstRestoreAt(subTasks[1..], j) && r == EntryRestoreOptions(subTasks[1..][j]) {
            var j :| FirstRestoreAt(subTasks[1..], j) && r == EntryRestoreOptions(subTasks[1..][j]);
            assert FirstRestoreAt(subTasks, j + 1) by {
              forall i | 0 <= i < j + 1 ensures IsOtherEntry(subTasks[i]) {
                if i > 0 { assert subTasks[i] == subTasks[1..][i - 1]; }
              }
            }
          }
        }
        assert r.Ok? && (forall i :: 0 <= i < |subTasks| - 1 ==> IsOtherEntry(subTasks[1..][i])) ==>
          forall i :: 0 <= i < |subTasks| ==> IsOtherEntry(subTasks[i]) by {
          if r.Ok? && forall i :: 0 <= i < |subTasks| - 1 ==> IsOtherEntry(subTasks[1..][i]) {
            forall i | 0 <= i < |subTasks| ensures IsOtherEntry(subTasks[i]) {
              if i > 0 { assert subTasks[i] == subTasks[1..][i - 1]; }
            }
          }
        }
        r
  }

  predicate IsRestoreEntry(st: Json) {
    RestoreKind(st) == Ok(true)
  }

  predicate IsOtherEntry(st: Json) {
    RestoreKind(st) == Ok(false)
  }

  /** Entry `j` is a RESTORE entry and every entry before it is a well-formed non-RESTORE one. */
  predicate FirstRestoreAt(subTasks: seq<Json>, j: int) {
    && 0 <= j < |subTasks|
    && IsRestoreEntry(subTasks[j])
    && forall i :: 0 <= i < j ==> IsOtherEntry(subTasks[i])
  }

  /** The options come from the first RESTORE entry; what follows it is never looked at. */
  lemma {:induction false} SelectsFirstRestore(subTasks: seq<Json>, j: int, rest: seq<Json>)
    requires FirstRestoreAt(subTasks, j)
    ensures FindRestoreOptions(subTasks) == EntryRestoreOptions(subTasks[j])
    ensures FindRestoreOptions(subTasks[..j + 1] + rest) == EntryRestoreOptions(subTasks[j])
    decreases j
  {
    if j > 0 {
      assert IsOtherEntry(subTasks[0]);
      var tail := subTasks[1..];
      assert FirstRestoreAt(tail, j - 1) by {
        forall i | 0 <= i < j - 1 ensures IsOtherEntry(tail[i]) {
          assert tail[i] == subTasks[i + 1];
        }
      }
      SelectsFirstRestore(tail, j - 1, rest);
      assert (subTasks[..j + 1] + rest)[1..] == tail[..j] + rest;
    }
  }

  /** With no RESTORE entry among well-formed entries, the options start empty. */
  lemma {:induction false} NoRestoreEntryGivesEmpty(subTasks: seq<Json>)
    requires forall i :: 0 <= i < |subTasks| ==> IsOtherEntry(subTasks[i])
    ensures FindRestoreOptions(subTasks) == Ok(EmptyObj)
    decreases |subTasks|
  {
    if |subTasks| > 0 {
      assert IsOtherEntry(subTasks[0]);
      var tail := subTasks[1..];
      assert forall i :: 0 <= i < |tail| ==> tail[i] == subTasks[i + 1];
      NoRestoreEntryGivesEmpty(tail);
    }
  }

  // ---------------------------------------------------------------------------
  // Applying the overrides
  // ---------------------------------------------------------------------------

  /** The destination override is applied only when it is truthy. */
  predicate DestinationApplies(ov: Overrides) {
    Truthy(OverrideValue(ov.destination))
  }

  /** A flag override is applied whenever it is not `None`; `False` and `""` still apply. */
  predicate FlagApplies(o: Option<Json>) {
    o.Some? && o.value != Null
  }

  /** The keys the override set writes into the restore options. */
  function AppliedKeys(ov: Overrides): set<string> {
    (if DestinationApplies(ov) then {"destination"} else {})
    + (if FlagApplies(ov.overwriteFiles) then {"overwriteFiles"} else {})
    + (if FlagApplies(ov.restoreACLsType) then {"restoreACLsType"} else {})
  }

  /** `dict(restore_opts)` with the overrides layered on top. */
  function ApplyOverrides(base: map<string, Json>, ov: Overrides): (merged: map<string, Json>)
    ensures merged.Keys == base.Keys + AppliedKeys(ov)
    ensures forall k :: k in base && k !in AppliedKeys(ov) ==> merged[k] == base[k]
    ensures DestinationApplies(ov) ==> merged["destination"] == ov.destination.value
    ensures FlagApplies(ov.overwriteFiles) ==> merged["overwriteFiles"] == ov.overwriteFiles.value
    ensures FlagApplies(ov.restoreACLsType) ==> merged["restoreACLsType"] == ov.restoreACLsType.value
  {
    var withDestination :=
      if Truthy(OverrideValue(ov.destination)) then base["destination" := OverrideValue(ov.destination)]
      else base;
    var withOverwrite :=
      if OverrideValue(ov.overwriteFiles) != Null then withDestination["overwriteFiles" := OverrideValue(ov.overwriteFiles)]
      else withDestination;
    if OverrideValue(ov.restoreACLsType) != Null then withOverwrite["restoreACLsType" := OverrideValue(ov.restoreACLsType)]
    else withOverwrite
  }

  // ---------------------------------------------------------------------------
  // The destination sanity check
  // ---------------------------------------------------------------------------

  /** The in-place heuristic: a restore is in-place exactly when it has no truthy destination. */
  function IsInPlaceRestore(opts: map<string, Json>): (r: bool)
    // in-place exactly when the sanity check's own `dest` (line 126, default `{}`) is falsy
    ensures r <==> !Truthy(if "destination" in opts then opts["destination"] else EmptyObj)
  {
    !Truthy(Lookup(opts, "destination"))
  }

  /**
   * Fails when the destination is falsy and the restore is not in-place. Because the
   * in-place heuristic is the negation of the first test, the check never fails.
   */
  function CheckDestination(opts: map<string, Json>): (r: Result<(), BuildError>)
    ensures r.Ok?
  {
    var dest := if "destination" in opts then opts["destination"] else EmptyObj;
    if !Truthy(dest) && !IsInPlaceRestore(opts) then Err(DestinationMissing) else Ok(())
  }

  // ---------------------------------------------------------------------------
  // Normalising associations
  // ---------------------------------------------------------------------------

  /** The association fields CreateTask is given, in the order the script writes them. */
  const AssociationFields: seq<string> := ["clientName", "appName", "instanceId", "backupsetId", "subclientId"]

  /** One association reduced to the five fields, each `None` when the source lacks it. */
  function NormalizeAssociation(a: map<string, Json>): (r: map<string, Json>)
    ensures r.Keys == set k | k in AssociationFields
    ensures forall k :: k in r && k in a ==> r[k] == a[k]
    ensures forall k :: k in r && k !in a ==> r[k] == Null
  {
    map k | k in AssociationFields :: Lookup(a, k)
  }

  /** Every element is a dict; otherwise the first non-dict makes `.get` raise. */
  predicate AllObjects(xs: seq<Json>) {
    forall i :: 0 <= i < |xs| ==> xs[i].Obj?
  }

  /** The loop of normalize_associations over the visited elements. */
  function NormalizeAll(xs: seq<Json>): (r: Result<seq<Json>, Fault>)
    ensures r.Ok? <==> AllObjects(xs)
    ensures r.Ok? ==> |r.value| == |xs|
    ensures r.Ok? ==> forall i :: 0 <= i < |xs| ==> r.value[i] == Obj(NormalizeAssociation(xs[i].fields))
    decreases |xs|
  {
    if |xs| == 0 then Ok([])
    else
      var a := xs[0];
      if !a.Obj? then Err(AttributeError)
      else
        var rest :- NormalizeAll(xs[1..]);
        Ok([Obj(NormalizeAssociation(a.fields))] + rest)
  }

  /** normalize_associations: iterate the associations value and normalise each element. */
  function NormalizeAssociations(associations: Json): (r: Result<seq<Json>, Fault>)
    ensures associations.Arr? ==> (r.Ok? <==> AllObjects(associations.items))
    ensures r.Ok? && associations.Arr? ==> |r.value| == |associations.items|
    ensures r.Ok? && associations.Arr? ==> forall i :: 0 <= i < |r.value| ==>
      r.value[i] == Obj(NormalizeAssociation(associations.items[i].fields))
  {
    var xs :- Elements(associations);
    NormalizeAll(xs)
  }

  // ---------------------------------------------------------------------------
  // The payload
  // ---------------------------------------------------------------------------

  /** The fixed CreateTask envelope around the normalised associations and merged options. */
  function Envelope(associations: seq<Json>, restoreOptions: map<string, Json>): (p: Json)
    ensures p.Obj? && p.fields.Keys == {"taskInfo"}
    ensures var ti := At(p, ["taskInfo"]);
      ti.Some? && ti.value.Obj? && ti.value.fields.Keys == {"task", "associations", "subTasks"}
    ensures At(p, ["taskInfo", "task"]) == Some(ImmediateTask)
    ensures At(p, ["taskInfo", "associations"]) == Some(Arr(associations))
    ensures At(p, ["taskInfo", "subTasks"]) == Some(Arr([RestoreSubTaskEntry(restoreOptions)]))
  {
    Obj(map["taskInfo" := Obj(map[
      "task" := ImmediateTask,
      "associations" := Arr(associations),
      "subTasks" := Arr([RestoreSubTaskEntry(restoreOptions)])])])
  }

  /**
   * The options of the first RESTORE subtask, copied with `dict()` and with
   * the overrides layered on top.
   */
  function MergedRestoreOptions(subTasksValue: Json, ov: Overrides): (r: Result<map<string, Json>, Fault>)
    // the subtasks must be iterable
    ensures !(subTasksValue.Arr? || subTasksValue.Str? || subTasksValue == EmptyObj) ==> r.Err?
    // whatever the schedule held, every applied override ends up in the merged options
    ensures r.Ok? ==> AppliedKeys(ov) <= r.value.Keys
    ensures r.Ok? && DestinationApplies(ov) ==> r.value["destination"] == ov.destination.value
    ensures r.Ok? && FlagApplies(ov.overwriteFiles) ==> r.value["overwriteFiles"] == ov.overwriteFiles.value
    ensures r.Ok? && FlagApplies(ov.restoreACLsType) ==> r.value["restoreACLsType"] == ov.restoreACLsType.value
  {
    var subTasks :- Elements(subTasksValue);
    var restoreOpts :- FindRestoreOptions(subTasks);
    var base :- ToDict(restoreOpts);
    Ok(ApplyOverrides(base, ov))
  }

  // ---------------------------------------------------------------------------
  // Reading documents
  // ---------------------------------------------------------------------------

  /** The value reached by following `path` through nested dicts, if every step exists. */
  function At(j: Json, path: seq<string>): Option<Json>
    decreases |path|
  {
    if |path| == 0 then Some(j)
    else if j.Obj? && path[0] in j.fields then At(j.fields[path[0]], path[1..])
    else None
  }

  // The parts of a schedule document the builder reads, for use in contracts. Where a `.get`
  // would raise they read as the `.get` default; BuildRestorePayload reports that case itself.

  function TaskInfoOf(props: Json): Json {
    Get(props, "taskInfo", EmptyObj).GetOr(EmptyObj)
  }

  function AssociationsOf(props: Json): Json {
    Get(TaskInfoOf(props), "associations", Arr([])).GetOr(Arr([]))
  }

  function SubTasksOf(props: Json): Json {
    Get(TaskInfoOf(props), "subTasks", Arr([])).GetOr(Arr([]))
  }

  /** The task block of every payload: run now, from the command line, enabled. */
  const ImmediateTask: Json := Obj(map[
    "initiatedFrom" := Str("COMMANDLINE"),
    "taskType" := Int(0),
    "policyType" := Str("DATA_PROTECTION"),
    "taskFlags" := Obj(map["disabled" := Bool(false)])])

  /** The `subTask` block of the payload's only subtask. */
  const RestoreSubTask: Json := Obj(map["subTaskType" := Str("RESTORE"), "operationType" := Str("RESTORE")])

  /** The payload's only subtask: a RESTORE/RESTORE subtask whose options hold `restoreOptions`. */
  function RestoreSubTaskEntry(restoreOptions: map<string, Json>): (st: Json)
    ensures At(st, ["subTask"]) == Some(RestoreSubTask)
    ensures At(st, ["options", "restoreOptions"]) == Some(Obj(restoreOptions))
  {
    Obj(map["subTask" := RestoreSubTask, "options" := Obj(map["restoreOptions" := Obj(restoreOptions)])])
  }

  /** build_restore_payload with the override set passed in. */
  function BuildRestorePayload(props: Json, ov: Overrides): (r: Result<Json, BuildError>)
    // the destination check never fires
    ensures r != Err(DestinationMissing)
    // a missing or empty associations value is reported as such, and nothing else is
    ensures r == Err(NoAssociations) <==> props.Obj? && TaskInfoOf(props).Obj? && !Truthy(AssociationsOf(props))
    // on success, the envelope around the normalised associations and the merged options
    ensures r.Ok? ==>
      && NormalizeAssociations(AssociationsOf(props)).Ok?
      && MergedRestoreOptions(SubTasksOf(props), ov).Ok?
      && r.value == Envelope(NormalizeAssociations(AssociationsOf(props)).value,
                             MergedRestoreOptions(SubTasksOf(props), ov).value)
  {
    var ti :- Raise(Get(props, "taskInfo", EmptyObj));
    var associations :- Raise(Get(ti, "associations", Arr([])));
    // `ti` is a dict once the first `ti.get` has returned, so the second cannot raise
    var subTasksValue := Get(ti, "subTasks", Arr([])).GetOr(Arr([]));
    if !Truthy(associations) then Err(NoAssociations)
    else
      var merged :- Raise(MergedRestoreOptions(subTasksValue, ov));
      if CheckDestination(merged).Err? then Err(DestinationMissing)
      else
      var normalized :- Raise(NormalizeAssociations(associations));
      Ok(Envelope(normalized, merged))
  }
}

=== FILE: restore_properties.dfy ===
/** Properties of build_restore_payload that relate the payload back to the schedule document. */
module RestoreProperties {
  import opened Results
  import opened Json
  import opened RestorePayload

  /**
   * Subtasks a schedule normally carries: either no RESTORE entry among well-formed entries,
   * or a first RESTORE entry whose restoreOptions is a dict.
   */
  ghost predicate WellFormedSubTasks(subTasks: seq<Json>) {
    || (forall i :: 0 <= i < |subTasks| ==> IsOtherEntry(subTasks[i]))
    || exists j :: FirstRestoreAt(subTasks, j) && RestoreOptionsIsDict(subTasks[j])
  }

  predicate RestoreOptionsIsDict(st: Json) {
    EntryRestoreOptions(st).Ok? && EntryRestoreOptions(st).value.Obj?
  }

  /** A schedule document whose every visited part has the shape the script expects. */
  ghost predicate WellShaped(props: Json) {
    && props.Obj?
    && TaskInfoOf(props).Obj?
    && SubTasksOf(props).Arr?
    && WellFormedSubTasks(SubTasksOf(props).items)
    && AssociationsOf(props).Arr?
    && AllObjects(AssociationsOf(props).items)
  }

  /** On a well-shaped document the only way building fails is an empty associations list. */
  lemma WellShapedFailsOnlyWithoutAssociations(props: Json, ov: Overrides)
    requires WellShaped(props)
    ensures BuildRestorePayload(props, ov).Ok? <==> Truthy(AssociationsOf(props))
    ensures BuildRestorePayload(props, ov).Err? ==> BuildRestorePayload(props, ov).error == NoAssociations
  {
    var subTasks := SubTasksOf(props).items;
    if forall i :: 0 <= i < |subTasks| ==> IsOtherEntry(subTasks[i]) {
      NoRestoreEntryGivesEmpty(subTasks);
    } else {
      var j :| FirstRestoreAt(subTasks, j) && RestoreOptionsIsDict(subTasks[j]);
      SelectsFirstRestore(subTasks, j, []);
    }
    assert MergedRestoreOptions(SubTasksOf(props), ov).Ok?;
  }

  /**
   * The merged restore options (which a built payload carries, see BuildRestorePayload) are
   * the first RESTORE entry's restoreOptions with the overrides applied: overridden keys
   * take the override value, every other key keeps the schedule's value, and no other key
   * appears. Entries after the first RESTORE entry are never looked at.
   */
  lemma MergedOptionsFromFirstRestoreEntry(subTasks: seq<Json>, ov: Overrides, j: int)
    requires FirstRestoreAt(subTasks, j) && RestoreOptionsIsDict(subTasks[j])
    ensures MergedRestoreOptions(Arr(subTasks), ov)
      == Ok(ApplyOverrides(EntryRestoreOptions(subTasks[j]).value.fields, ov))
  {
    SelectsFirstRestore(subTasks, j, []);
  }

  /**
   * With no RESTORE entry the merged restore options are the overrides applied to `{}`: they
   * hold exactly the applied override keys, each with its override value.
   */
  lemma MergedOptionsWithoutRestoreEntry(subTasks: seq<Json>, ov: Overrides)
    requires forall i :: 0 <= i < |subTasks| ==> IsOtherEntry(subTasks[i])
    ensures MergedRestoreOptions(Arr(subTasks), ov) == Ok(ApplyOverrides(map[], ov))
  {
    NoRestoreEntryGivesEmpty(subTasks);
  }

  /** Restore options holding each of the three override values. */
  predicate CarriesOverrides(ro: map<string, Json>, ov: Overrides)
    requires ov.destination.Some? && ov.overwriteFiles.Some? && ov.restoreACLsType.Some?
  {
    && "destination" in ro && ro["destination"] == ov.destination.value
    && "overwriteFiles" in ro && ro["overwriteFiles"] == ov.overwriteFiles.value
    && "restoreACLsType" in ro && ro["restoreACLsType"] == ov.restoreACLsType.value
  }

  /**
   * An override set whose three values all apply is carried verbatim by the payload: a
   * well-shaped schedule with associations builds, and the payload's single subtask is the
   * RESTORE entry whose restore options hold the three override values, whatever the
   * schedule held.
   */
  lemma AppliedOverridesReachThePayload(props: Json, ov: Overrides)
    requires WellShaped(props) && Truthy(AssociationsOf(props))
    requires DestinationApplies(ov) && FlagApplies(ov.overwriteFiles) && FlagApplies(ov.restoreACLsType)
    ensures BuildRestorePayload(props, ov).Ok? && MergedRestoreOptions(SubTasksOf(props), ov).Ok?
    ensures At(BuildRestorePayload(props, ov).value, ["taskInfo", "subTasks"])
      == Some(Arr([RestoreSubTaskEntry(MergedRestoreOptions(SubTasksOf(props), ov).value)]))
    ensures CarriesOverrides(MergedRestoreOptions(SubTasksOf(props), ov).value, ov)
  {
    WellShapedFailsOnlyWithoutAssociations(props, ov);
  }

  /**
   * The script's own override set applies all three of its values: the destination is a
   * non-empty dict, and the two flags are set and not None.
   */
  lemma ShippedOverridesAllApply()
    ensures DestinationApplies(OVERRIDES)
    ensures FlagApplies(OVERRIDES.overwriteFiles) && OVERRIDES.overwriteFiles.value == Bool(true)
    ensures FlagApplies(OVERRIDES.restoreACLsType) && OVERRIDES.restoreACLsType.value == Str("ACL_DATA")
  {
  }
}

=== FILE: results.dfy ===
/** Failure-compatible wrappers used by the rest of the model. */
module Results {

  /** A value that may be absent (a Python `None`, or a key missing from a dict). */
  datatype Option<+T> = None | Some(value: T)

  /** The outcome of an operation that may raise: `Ok` carries the value, `Err` the error. */
  datatype Result<+T, +E> = Ok(value: T) | Err(error: E) {

    predicate IsFailure() {
      Err?
    }

    function PropagateFailure<U>(): Result<U, E>
      requires Err?
    {
      Err(error)
    }

    function Extract(): T
      requires Ok?
    {
      value
    }

    /** The success value, or `default` on an error. */
    function GetOr(default: T): T
    {
      match this
      case Ok(v) => v
      case Err(_) => default
    }

    /** Converts the error with `f`, keeping a success as it is. */
    function MapError<F>(f: E -> F): Result<T, F>
    {
      match this
      case Ok(v) => Ok(v)
      case Err(e) => Err(f(e))
    }
  }
}

=== FILE: text.dfy ===
/** The string operations of the job filter: lower-casing and substring containment. */
module Text {

  /** `c.lower()` for ASCII letters; other characters are unchanged. */
  function LowerChar(c: char): char {
    if 'A' <= c <= 'Z' then (c as int - 'A' as int + 'a' as int) as char else c
  }

  /** `s.lower()`, letter by letter. */
  function Lower(s: string): (r: string)
    ensures |r| == |s|
    ensures forall i :: 0 <= i < |s| ==> r[i] == LowerChar(s[i])
  {
    seq(|s|, i requires 0 <= i < |s| => LowerChar(s[i]))
  }

  /** `needle` occurs in `hay` starting at offset `i`. */
  predicate OccursAt(needle: string, hay: string, i: int) {
    0 <= i && i + |needle| <= |hay| && hay[i..i + |needle|] == needle
  }

  /** `needle in hay`: `needle` occurs in `hay` at some offset. */
  ghost predicate OccursIn(needle: string, hay: string) {
    exists i :: OccursAt(needle, hay, i)
  }

  /** The substring test, scanning `hay` from the left. */
  function Contains(hay: string, needle: string): (r: bool)
    ensures r <==> OccursIn(needle, hay)
    decreases |hay|
  {
    if |needle| <= |hay| && hay[..|needle|] == needle then
      assert OccursAt(needle, hay, 0);
      true
    else if |hay| == 0 then false
    else
      var found := Contains(hay[1..], needle);
      assert found ==> OccursIn(needle, hay) by {
        if found {
          var i :| OccursAt(needle, hay[1..], i);
          assert hay[i + 1..i + 1 + |needle|] == hay[1..][i..i + |needle|];
          assert OccursAt(needle, hay, i + 1);
        }
      }
      assert OccursIn(needle, hay) ==> found by {
        if OccursIn(needle, hay) {
          var i :| OccursAt(needle, hay, i);
          // offset 0 was ruled out by the first branch
          if i > 0 {
            assert hay[1..][i - 1..i - 1 + |needle|] == hay[i..i + |needle|];
            assert OccursAt(needle, hay[1..], i - 1);
          }
        }
      }
      found
  }
}

=== FILE: time_sort.dfy ===
/**
 * `recent.sort(key=lambda x: x[1])`: Python's stable sort of the reported jobs by submit
 * time, as insertion sort, with the facts that pin its result down.
 */
module TimeSort {
  import opened JobFilter

  /** Submit times never decrease along `s`. */
  predicate SortedByTime(s: seq<RecentJob>) {
    forall i, j :: 0 <= i < j < |s| ==> s[i].submitted <= s[j].submitted
  }

  /** The jobs of `s` submitted at time `t`, in their order in `s`. */
  function WithTime(s: seq<RecentJob>, t: int): seq<RecentJob>
    decreases |s|
  {
    if |s| == 0 then []
    else (if s[0].submitted == t then [s[0]] else []) + WithTime(s[1..], t)
  }

  /**
   * Inserts `x` in front of the first job of `s` submitted no earlier than it, so on a
   * sorted `s` it lands after every earlier job and before every job with the same time.
   */
  function InsertByTime(x: RecentJob, s: seq<RecentJob>): (r: seq<RecentJob>)
    ensures multiset(r) == multiset{x} + multiset(s)
    decreases |s|
  {
    if |s| == 0 then [x]
    else if x.submitted <= s[0].submitted then [x] + s
    else
      assert s == [s[0]] + s[1..];
      [s[0]] + InsertByTime(x, s[1..])
  }

  lemma {:induction false} InsertKeepsSorted(x: RecentJob, s: seq<RecentJob>)
    requires SortedByTime(s)
    ensures SortedByTime(InsertByTime(x, s))
    decreases |s|
  {
    if |s| > 0 && x.submitted > s[0].submitted {
      var rest := InsertByTime(x, s[1..]);
      InsertKeepsSorted(x, s[1..]);
      forall k | 0 <= k < |rest| ensures s[0].submitted <= rest[k].submitted {
        assert rest[k] in multiset(rest);
        assert rest[k] == x || rest[k] in s[1..];
      }
      assert InsertByTime(x, s) == [s[0]] + rest;
    }
  }

  /** Inserting `x` puts it in front of the jobs of `s` that share its time. */
  lemma {:induction false} InsertPrecedesEqualTimes(x: RecentJob, s: seq<RecentJob>, t: int)
    ensures WithTime(InsertByTime(x, s), t) == (if x.submitted == t then [x] else []) + WithTime(s, t)
    decreases |s|
  {
    if |s| > 0 && x.submitted > s[0].submitted {
      var rest := InsertByTime(x, s[1..]);
      InsertPrecedesEqualTimes(x, s[1..], t);
      assert ([s[0]] + rest)[1..] == rest;
    } else if |s| > 0 {
      assert ([x] + s)[1..] == s;
    }
  }

  /** Sorts by submit time, keeping jobs with equal times in input order. */
  function SortByTime(s: seq<RecentJob>): (r: seq<RecentJob>)
    ensures multiset(r) == multiset(s)
    decreases |s|
  {
    if |s| == 0 then []
    else
      assert s == [s[0]] + s[1..];
      InsertByTime(s[0], SortByTime(s[1..]))
  }

  lemma {:induction false} SortIsSorted(s: seq<RecentJob>)
    ensures SortedByTime(SortByTime(s))
    decreases |s|
  {
    if |s| > 0 {
      SortIsSorted(s[1..]);
      InsertKeepsSorted(s[0], SortByTime(s[1..]));
    }
  }

  /** Stability: for every time, the jobs with that time keep their input order. */
  lemma {:induction false} SortIsStable(s: seq<RecentJob>, t: int)
    ensures WithTime(SortByTime(s), t) == WithTime(s, t)
    decreases |s|
  {
    if |s| > 0 {
      SortIsStable(s[1..], t);
      InsertPrecedesEqualTimes(s[0], SortByTime(s[1..]), t);
    }
  }

  lemma {:induction false} WithTimeMembers(s: seq<RecentJob>, t: int, y: RecentJob)
    requires y in WithTime(s, t)
    ensures y in s && y.submitted == t
    decreases |s|
  {
    if s[0].submitted == t && y == s[0] {
    } else {
      WithTimeMembers(s[1..], t, y);
    }
  }

  lemma HeadTimeIsPresent(s: seq<RecentJob>)
    ensures |s| > 0 ==> WithTime(s, s[0].submitted) != []
  {
  }

  /**
   * A stable sort by time has exactly one possible result: two sorted sequences with the
   * same jobs, in the same order, at every time are equal.
   */
  lemma {:induction false} StableSortIsUnique(a: seq<RecentJob>, b: seq<RecentJob>)
    requires SortedByTime(a) && SortedByTime(b)
    requires forall t :: WithTime(a, t) == WithTime(b, t)
    ensures a == b
    decreases |a|
  {
    if |a| == 0 && |b| == 0 {
      return;
    }
    if |a| == 0 || |b| == 0 {
      // the first job of the non-empty one has a time at which the other has no job
      HeadTimeIsPresent(if |a| == 0 then b else a);
      assert false;
    }
    var ka, kb := a[0].submitted, b[0].submitted;
    assert WithTime(a, ka)[0] == a[0];
    assert WithTime(b, kb)[0] == b[0];
    WithTimeMembers(b, ka, WithTime(b, ka)[0]);
    WithTimeMembers(a, kb, WithTime(a, kb)[0]);
    assert kb <= ka;
    assert ka <= kb;
    assert a[0] == b[0];
    forall t ensures WithTime(a[1..], t) == WithTime(b[1..], t) {
      var p := if a[0].submitted == t then [a[0]] else [];
      assert WithTime(a, t) == p + WithTime(a[1..], t);
      assert WithTime(b, t) == p + WithTime(b[1..], t);
      assert WithTime(a[1..], t) == WithTime(a, t)[|p|..];
    }
    StableSortIsUnique(a[1..], b[1..]);
    assert a == [a[0]] + a[1..];
    assert b == [b[0]] + b[1..];
  }

  /** A job occurs in `s` as often as it occurs among the jobs of `s` sharing its time. */
  lemma {:induction false} CountWithinTime(s: seq<RecentJob>, x: RecentJob)
    ensures multiset(s)[x] == multiset(WithTime(s, x.submitted))[x]
    decreases |s|
  {
    if |s| > 0 {
      CountWithinTime(s[1..], x);
      assert s == [s[0]] + s[1..];
    }
  }

  /** Equal jobs in equal order at every time makes two sequences permutations of each other. */
  lemma SameTimeClassesArePermutations(a: seq<RecentJob>, b: seq<RecentJob>)
    requires forall t :: WithTime(a, t) == WithTime(b, t)
    ensures multiset(a) == multiset(b)
  {
    forall x ensures multiset(a)[x] == multiset(b)[x] {
      CountWithinTime(a, x);
      CountWithinTime(b, x);
    }
  }
}
